=== FILE: README.md ===
# Conversation deletion in GrapheneOS Messaging, modelled in Dafny

This project models the conversation deletion pipeline of the messaging app.

- **Retention setting.** The number of days a soft-deleted conversation is
  kept (`AutoDeleteDaysPreference`). Entered text is parsed, clamped to
  [0, 999], and stored as a decimal string. The default is 14.
- **Status update.** `UpdateConversationDeletedStatusAction` sets or clears
  a conversation's `deleted_status` flag inside one database transaction.
- **Delete action.** `DeleteConversationAction` runs a batch of targets.
  - A conversation that is still active, under a non-zero retention setting,
    is only soft-deleted.
  - Otherwise it is deleted permanently. The local row goes first, then the
    telephony provider's thread.
  - If the thread id is negative, the telephony provider's messages are
    deleted one by one instead.
  - Successes and failures are counted, and each non-zero count is reported
    in a toast.
- **Sweep.** `AutoDeleteOldConversationsAction` is the periodic sweep.
  - It permanently deletes, from the local store only, the soft-deleted
    conversations whose deletion timestamp is positive and at or before a
    cutoff.
  - The cutoff is computed from the retention setting and the clock, in Java
    `long` arithmetic.

Modules follow the source classes:

| file | module | role |
|---|---|---|
| `java_types.dfy` | `JavaTypes` | Java `int`/`long`, 64-bit wrap-around, nullable values |
| `effects.dfy` | `Effects` | the ordered log of observable effects (queries, transaction steps, telephony calls, notifications, toasts) |
| `conversation_store.dfy` | `ConversationStore` | the conversation table and the database operations the actions call |
| `update_deleted_status.dfy` | `UpdateConversationDeletedStatusAction` | the status update |
| `deletion_batch.dfy` | `DeletionBatch` | the batch loop of `doBackgroundWork`, generic over the per-target step |
| `delete_conversation.dfy` | `DeleteConversationAction` | soft and permanent deletion of one conversation, the telephony fallback, and the batch |
| `auto_delete_old.dfy` | `AutoDeleteOldConversationsAction` | the retention cutoff, the candidate query and the sweep |
| `auto_delete_days.dfy` | `AutoDeleteDaysPreference` | `Integer.parseInt`, `String.valueOf`, and the preference's text handling |

Some collaborators' bodies are not part of this model. What they return
enters as parameters, and the contracts quantify over every possible answer:

- `BugleDatabaseOperations`: whether `deleteConversation` removes the row, the
  `deleted_timestamp` that the status update writes, and whether that update
  throws.
- `MmsUtils`: the counts returned by `deleteThread` and `deleteMessage`.
- The message rows that the telephony fallback reads.
- The cursor's order.
- The clock.

The effects of the delete action and the status update are recorded in an
event log, in order, so that the contracts can state ordering and "never
calls X" properties. The log covers the deleted-status and thread-id reads,
transaction steps, local and telephony deletions, notifications, toasts, the
widget and the notification channel. A batch's log is the log of every
target in turn, followed by the toasts and the refresh. Two queries leave no
event: the sweep's candidate query and the fallback's message query. Their
results are parameters instead (the scan order and the message rows).
Logging is not recorded.

## Behaviour worth knowing

- **Sweep scope.** The sweep deletes local rows only and never calls the
  telephony provider (`AutoDeleteOldConversationsAction.java:95-100`), so
  `Sweep` never produces a telephony event (`NoTelephony`).
- **When to soft-delete.** An active conversation is soft-deleted whenever
  `retentionDays != 0` (`DeleteConversationAction.java:193`), so a negative
  retention, which disables the sweep, still soft-deletes.
  `TakesPermanentPath` states this.
- **Zero retention.** The sweep's cutoff for zero retention is
  `Long.MAX_VALUE` (`AutoDeleteOldConversationsAction.java:62-64`), so it
  selects every soft-deleted row with a positive timestamp.
  `RetentionCutoff` and `ZeroRetentionSelectsAllSoftDeleted` state this.
- **Overflowing input.** A number too large for an `int` makes
  `Integer.parseInt` throw (`AutoDeleteDaysPreference.java:61-64`), so the
  preference stores the default 14, not the maximum 999.
  `OverflowStoresDefault` states this.

## Model

| member | source | states |
|---|---|---|
| `JavaTypes.Wrap64` | src/com/android/messaging/datamodel/action/AutoDeleteOldConversationsAction.java:67 | Java `long` reduction: a value already in range is unchanged, and any value is congruent to its wrapped result modulo 2^64 |
| `ConversationStore.ThreadId` | src/com/android/messaging/datamodel/action/DeleteConversationAction.java:210-211 | the thread id of a present row; a missing row reads as a negative id |
| `ConversationStore.IsDeleted` | src/com/android/messaging/datamodel/action/DeleteConversationAction.java:176-191 | a conversation counts as already deleted when its row exists and its deleted flag is set; a missing row counts as not deleted |
| `ConversationStore.SetDeletedStatus` | src/com/android/messaging/datamodel/action/UpdateConversationDeletedStatusAction.java:60-61 | the table keeps the same ids, the named row gets the requested flag and keeps its thread id, every other row is unchanged |
| `ConversationStore.DeleteConversation` | src/com/android/messaging/datamodel/action/DeleteConversationAction.java:213 | success exactly when the database succeeds and the row exists; on success only that row disappears, and the remaining rows are unchanged |
| `ConversationStore.ThreadIdGoneAfterDelete` | src/com/android/messaging/datamodel/action/DeleteConversationAction.java:210-213 | after a successful local delete the thread id can no longer be read, which is why it is read before the delete |
| `UpdateConversationDeletedStatusAction.ExecuteAction` | src/com/android/messaging/datamodel/action/UpdateConversationDeletedStatusAction.java:53-70 | only the named row can change; it gets the requested flag and keeps its thread id; an update that throws leaves the table as it was and its log is exactly begin, update, end, with nothing announced; the transaction is begun first and always ended; it is marked successful, and the list is notified, exactly when the update did not throw; a committed update is followed by the list and metadata notifications, in that order; nothing is deleted and no toast is shown |
| `UpdateConversationDeletedStatusAction.DeleteRequest` | src/com/android/messaging/datamodel/action/UpdateConversationDeletedStatusAction.java:30-34 | `deleteConversation` asks for the flag to be set on a non-empty id |
| `UpdateConversationDeletedStatusAction.UndeleteRequest` | src/com/android/messaging/datamodel/action/UpdateConversationDeletedStatusAction.java:36-40 | `undeleteConversation` asks for the flag to be cleared on a non-empty id |
| `UpdateConversationDeletedStatusAction.DeleteThenUndelete` | src/com/android/messaging/datamodel/action/UpdateConversationDeletedStatusAction.java:30-40 | `deleteConversation` marks the row deleted; a following `undeleteConversation` leaves it present and not deleted, with the same thread id and every other row as it was |
| `DeletionBatch.ResultsInOrder` | src/com/android/messaging/datamodel/action/DeleteConversationAction.java:134-140 | the j-th result is what target j returns on the store left by the targets before it, whatever they returned |
| `DeletionBatch.StepsShowNoToasts` | src/com/android/messaging/datamodel/action/DeleteConversationAction.java:134-140 | when no single target shows a toast, the concatenated logs of the targets hold none |
| `DeletionBatch.Summary` | src/com/android/messaging/datamodel/action/DeleteConversationAction.java:142-152 | exactly one toast per non-zero count and nothing else but the refresh: the failure toast with the failure count comes first when something failed, the success toast with the success count comes just before the refresh when something succeeded, and the notification refresh comes last |
| `DeletionBatch.ProcessAll` | src/com/android/messaging/datamodel/action/DeleteConversationAction.java:132-140 | every target is processed in order on the store the previous one left; the events are every target's events in that order; the success count is the number of true results and success plus failure is the batch size |
| `DeletionBatch.RunBatch` | src/com/android/messaging/datamodel/action/DeleteConversationAction.java:128-154 | an empty batch does nothing and reports nothing; otherwise the store, results and counts are those of processing every target in order, and the log is every target's events followed by the summary events |
| `DeleteConversationAction.DeleteMessages` | src/com/android/messaging/datamodel/action/DeleteConversationAction.java:270-306 | one telephony deletion per row whose URI parses and nothing else; the deleted count never exceeds the parsed count, and equals it exactly when every parsed row's deletion returned a positive count |
| `DeleteConversationAction.Parses` | src/com/android/messaging/datamodel/action/DeleteConversationAction.java:280-285 | a row whose URI fails to parse is skipped; `Uri.parse` fails only on a null string |
| `DeleteConversationAction.DeleteMessagesSendsParsedRows` | src/com/android/messaging/datamodel/action/DeleteConversationAction.java:278-294 | every row whose URI parses gets a telephony deletion with its own URI and count, and every deletion sent belongs to such a row |
| `DeleteConversationAction.DeleteMessagesInRowOrder` | src/com/android/messaging/datamodel/action/DeleteConversationAction.java:278-294 | the calls go out in cursor order: the i-th call deletes the i-th row whose URI parses |
| `DeleteConversationAction.DeleteMessagesFromTelephony` | src/com/android/messaging/datamodel/action/DeleteConversationAction.java:266-307 | succeeds exactly when every parsed message was deleted; no rows means success; the i-th call is the one for the i-th row whose URI parses, with its own URI and count, and nothing else is sent |
| `DeleteConversationAction.DeleteFromTelephony` | src/com/android/messaging/datamodel/action/DeleteConversationAction.java:230-250 | a valid thread id leads to one thread deletion with the given cutoff, which succeeds exactly on a positive count; a negative id sends exactly the per-message calls of the fallback and succeeds as it does; `deleteThread` is never called with a negative id |
| `DeleteConversationAction.MmsDeleteThread` | src/com/android/messaging/datamodel/action/DeleteConversationAction.java:233-234 | `deleteThread` is only called with a non-negative thread id, and gives the count the telephony provider reports |
| `DeleteConversationAction.PermanentDelete` | src/com/android/messaging/datamodel/action/DeleteConversationAction.java:207-250 | the notification channel is removed, the thread id is read from the table as it was, then the row is deleted locally; a failed local delete is a failure that returns at once, with nothing notified and telephony untouched; after a successful one the row stays gone whatever telephony reports, the list and widget are notified, and then telephony is called |
| `DeleteConversationAction.SoftDelete` | src/com/android/messaging/datamodel/action/DeleteConversationAction.java:193-199 | the soft delete reports success at once, whatever the status update does; the request is followed by the status update's own log and store, and nothing is deleted |
| `DeleteConversationAction.TakesPermanentPath` | src/com/android/messaging/datamodel/action/DeleteConversationAction.java:193-201 | the permanent path is taken when the conversation is already soft-deleted or retention is zero; otherwise it is soft-deleted |
| `DeleteConversationAction.DeleteConversationInternal` | src/com/android/messaging/datamodel/action/DeleteConversationAction.java:161-255 | an empty id fails without touching anything; an active conversation under non-zero retention is only soft-deleted, with success and no permanent deletion; otherwise it is deleted permanently; no toast, and no negative thread id sent to telephony |
| `DeleteConversationAction.DeleteTouchesOnlyTarget` | src/com/android/messaging/datamodel/action/DeleteConversationAction.java:161-255 | deleting one conversation leaves every other row present or absent as before, and unchanged |
| `DeleteConversationAction.SoftDeleteThenPermanent` | src/com/android/messaging/datamodel/action/DeleteConversationAction.java:175-213 | the first delete of an active conversation under non-zero retention leaves it present and soft-deleted; a second delete takes the permanent path and removes it when the local delete succeeds |
| `DeleteConversationAction.PermanentPathSkipsSoftDelete` | src/com/android/messaging/datamodel/action/DeleteConversationAction.java:201-250 | the permanent path never requests a soft delete |
| `DeleteConversationAction.ZeroRetentionDeletesImmediately` | src/com/android/messaging/datamodel/action/DeleteConversationAction.java:193-213 | with zero retention an active conversation is removed in the same call, without a soft-delete request |
| `DeleteConversationAction.StepShowsNoToasts` | src/com/android/messaging/datamodel/action/DeleteConversationAction.java:161-255 | deleting one conversation never shows a toast; toasts belong to the batch |
| `DeleteConversationAction.DoBackgroundWork` | src/com/android/messaging/datamodel/action/DeleteConversationAction.java:121-155 | an empty batch does nothing; otherwise each target's result is what `deleteConversationInternal` returns on the store the earlier targets left; the counts add up to the batch size; the log is every conversation's events in order, then the toasts and the refresh, and no toast appears before the last conversation's events end |
| `AutoDeleteOldConversationsAction.RetentionCutoff` | src/com/android/messaging/datamodel/action/AutoDeleteOldConversationsAction.java:53-68 | a negative retention disables the sweep; zero gives the `Long.MAX_VALUE` cutoff; a positive retention gives now minus the retention in milliseconds, exactly, whenever that fits in a `long` |
| `AutoDeleteOldConversationsAction.IsPurgeCandidate` | src/com/android/messaging/datamodel/action/AutoDeleteOldConversationsAction.java:76-82 | a conversation is purged when it is soft-deleted and its deletion timestamp is positive and at or before the cutoff |
| `AutoDeleteOldConversationsAction.Candidates` | src/com/android/messaging/datamodel/action/AutoDeleteOldConversationsAction.java:76-82 | the ids the query selects: every present conversation that is a purge candidate |
| `AutoDeleteOldConversationsAction.PurgeEach` | src/com/android/messaging/datamodel/action/AutoDeleteOldConversationsAction.java:93-100 | one local deletion per scanned id, and the count never exceeds the number scanned |
| `AutoDeleteOldConversationsAction.PurgeEachRemovesScanned` | src/com/android/messaging/datamodel/action/AutoDeleteOldConversationsAction.java:94-100 | the purge removes exactly the scanned ids whose deletion succeeds, and leaves every other row as it was |
| `AutoDeleteOldConversationsAction.PurgeEachCountsRemoved` | src/com/android/messaging/datamodel/action/AutoDeleteOldConversationsAction.java:94-99 | the deleted count is the number of rows removed |
| `AutoDeleteOldConversationsAction.PurgeEachEvents` | src/com/android/messaging/datamodel/action/AutoDeleteOldConversationsAction.java:95-100 | each scanned id gets one local deletion with cutoff `Long.MAX_VALUE`, in scan order; it succeeds exactly when the row exists and the database does not fail it |
| `AutoDeleteOldConversationsAction.PurgeEventsAreLocal` | src/com/android/messaging/datamodel/action/AutoDeleteOldConversationsAction.java:96 | every purge step is a local deletion with cutoff `Long.MAX_VALUE` |
| `AutoDeleteOldConversationsAction.Notified` | src/com/android/messaging/datamodel/action/AutoDeleteOldConversationsAction.java:102-105 | the purge's events come first, unchanged, and the list-changed notification follows them exactly when something was deleted |
| `AutoDeleteOldConversationsAction.Sweep` | src/com/android/messaging/datamodel/action/AutoDeleteOldConversationsAction.java:43-108 | negative retention does nothing; otherwise exactly the candidates (soft-deleted, timestamp positive and at or before the cutoff) whose deletion succeeds are removed; survivors are unchanged; the count is the number removed; the log is one `Long.MAX_VALUE` local deletion per candidate in scan order, then the notification exactly when the count is positive; telephony is never called |
| `AutoDeleteOldConversationsAction.LogsScanFacts` | src/com/android/messaging/datamodel/action/AutoDeleteOldConversationsAction.java:95-105 | a log of the sweep's shape notifies exactly when the count is positive, deletes only with `Long.MAX_VALUE`, and never calls telephony |
| `AutoDeleteOldConversationsAction.ZeroRetentionSelectsAllSoftDeleted` | src/com/android/messaging/datamodel/action/AutoDeleteOldConversationsAction.java:60-80 | zero retention selects every soft-deleted conversation with a positive timestamp, however recent |
| `AutoDeleteOldConversationsAction.RetentionBoundaryInclusive` | src/com/android/messaging/datamodel/action/AutoDeleteOldConversationsAction.java:67-80 | a conversation deleted exactly the retention period ago is selected, and one deleted a millisecond later is not |
| `AutoDeleteOldConversationsAction.LongerRetentionSelectsFewer` | src/com/android/messaging/datamodel/action/AutoDeleteOldConversationsAction.java:66-80 | a longer retention selects a subset of what a shorter one selects |
| `AutoDeleteOldConversationsAction.SweepKeepsNonCandidates` | src/com/android/messaging/datamodel/action/AutoDeleteOldConversationsAction.java:53-100 | active conversations, and soft-deleted ones newer than the cutoff, survive the sweep unchanged; so does everything when the sweep is disabled |
| `AutoDeleteOldConversationsAction.ThreeConversationCandidates` | src/com/android/messaging/datamodel/action/AutoDeleteOldConversationsAction.java:59-82 | with deletions 20, 10 and 5 days ago and 14-day retention, only the first is a candidate |
| `AutoDeleteOldConversationsAction.ThreeConversationScenario` | src/com/android/messaging/datamodel/action/AutoDeleteOldConversationsAction.java:43-108 | in that case the sweep deletes one conversation and keeps the other two |
| `AutoDeleteDaysPreference.ParseInt` | src/com/android/messaging/ui/appsettings/AutoDeleteDaysPreference.java:61 | null, empty text and a lone sign are rejected; accepted text is an optional sign followed only by digits |
| `AutoDeleteDaysPreference.ParseSignedDigits` | src/com/android/messaging/ui/appsettings/AutoDeleteDaysPreference.java:61 | an optional sign followed by digits is accepted exactly when its signed value fits in an `int`, and then gives that value |
| `AutoDeleteDaysPreference.ParseIntRangeEnds` | src/com/android/messaging/ui/appsettings/AutoDeleteDaysPreference.java:61 | "2147483647" parses to `Integer.MAX_VALUE` and "-2147483648" to `Integer.MIN_VALUE` |
| `AutoDeleteDaysPreference.ParseIntOverflowRejected` | src/com/android/messaging/ui/appsettings/AutoDeleteDaysPreference.java:61-64 | "2147483648" and "-2147483649" are rejected |
| `AutoDeleteDaysPreference.ParseIntRejectsMalformed` | src/com/android/messaging/ui/appsettings/AutoDeleteDaysPreference.java:61-64 | text with letters, a doubled sign or a leading space is rejected |
| `AutoDeleteDaysPreference.DecimalString` | src/com/android/messaging/ui/appsettings/AutoDeleteDaysPreference.java:68 | the canonical decimal text: never empty; all digits without a leading zero for a non-negative value; `-` then digits without a leading zero for a negative one |
| `AutoDeleteDaysPreference.NatDigits` | src/com/android/messaging/ui/appsettings/AutoDeleteDaysPreference.java:68 | the digits of a natural number: non-empty, no leading zero, one digit exactly below ten |
| `AutoDeleteDaysPreference.NatDigitsValue` | src/com/android/messaging/ui/appsettings/AutoDeleteDaysPreference.java:68 | reading the digits back gives the number |
| `AutoDeleteDaysPreference.ParseDecimalString` | src/com/android/messaging/ui/appsettings/AutoDeleteDaysPreference.java:61-68 | parsing `String.valueOf(n)` gives back n for every `int` |
| `AutoDeleteDaysPreference.BoundStrings` | src/com/android/messaging/ui/appsettings/AutoDeleteDaysPreference.java:33-34 | the decimal texts of the default and of the bounds are "14", "0" and "999" |
| `AutoDeleteDaysPreference.ClampDays` | src/com/android/messaging/ui/appsettings/AutoDeleteDaysPreference.java:59-66 | text that does not parse gives 14, a negative value 0, a value above 999 gives 999, and anything else is kept |
| `AutoDeleteDaysPreference.SetText` | src/com/android/messaging/ui/appsettings/AutoDeleteDaysPreference.java:56-70 | the stored text is a canonical decimal string (digits, no leading zero) that parses to a value in [0, 999]; unparsable input stores "14", a negative value "0" and a value above 999 "999"; a value in range is kept |
| `AutoDeleteDaysPreference.OverflowStoresDefault` | src/com/android/messaging/ui/appsettings/AutoDeleteDaysPreference.java:59-68 | a number too large for an `int` is stored as "14", not clamped to "999" |
| `AutoDeleteDaysPreference.CanonicalValueStoredUnchanged` | src/com/android/messaging/ui/appsettings/AutoDeleteDaysPreference.java:56-70 | the canonical text of a value in [0, 999] is stored as it is |
| `AutoDeleteDaysPreference.SetTextIdempotent` | src/com/android/messaging/ui/appsettings/AutoDeleteDaysPreference.java:56-70 | storing the stored text again changes nothing |
| `AutoDeleteDaysPreference.NonCanonicalTextNormalised` | src/com/android/messaging/ui/appsettings/AutoDeleteDaysPreference.java:59-68 | signs and leading zeros are dropped: "+007" is stored as "7" |
| `AutoDeleteDaysPreference.GetText` | src/com/android/messaging/ui/appsettings/AutoDeleteDaysPreference.java:72-79 | no text, or empty text, reads as "14"; anything else is returned as stored |
| `AutoDeleteDaysPreference.SummaryDays` | src/com/android/messaging/ui/appsettings/AutoDeleteDaysPreference.java:81-88 | stored text that does not parse, including null and empty text, shows 14; text that parses shows its value, without clamping |
| `AutoDeleteDaysPreference.SummaryAfterSetText` | src/com/android/messaging/ui/appsettings/AutoDeleteDaysPreference.java:81-92 | after `setText`, the text read back is the text stored and the summary shows the clamped value, always in [0, 999]; with nothing stored it shows 14 |
| `AutoDeleteDaysPreference.InitialValue` | src/com/android/messaging/ui/appsettings/AutoDeleteDaysPreference.java:94-98 | with nothing persisted the initial text is "14", and the initial text always parses to a value in [0, 999] |
| `AutoDeleteDaysPreference.InitialValueIsSettled` | src/com/android/messaging/ui/appsettings/AutoDeleteDaysPreference.java:94-98 | the initial text is a fixed point of `setText`, and a canonical persisted value in [0, 999] is taken as it is |

## Left out

- Android plumbing is not modelled. This covers action dispatch, `Parcel`
  and `Bundle` packing, `start()` and `requestBackgroundWork()`. It also
  covers the static entry points `deleteConversation`/`deleteConversations`,
  which only package their arguments.
- The soft delete is modelled as a direct call. The source starts
  `UpdateConversationDeletedStatusAction` asynchronously; the model runs it in
  line. The delete action reports success without waiting for it, and the
  model keeps that.
- The retention setting is a parameter. The source reads it with
  `prefs.getInt` and a resource-defined default; neither the preference store
  nor the default is part of this model. The source reads it again for every
  conversation; the model reads it once per batch, so a setting that changes
  during a batch is not modelled.
- The link between the preference's stored text and that integer read is
  not modelled.
- The clock (`System.currentTimeMillis`) is a parameter.
- Collaborators whose bodies are not part of this model enter as parameters:
  - `BugleDatabaseOperations.deleteConversation` and
    `updateConversationDeletedStatusInTransaction` give their outcome as a
    parameter.
  - A missing row is never reported as deleted.
  - `getThreadId` is assumed to return -1 for a missing row.
  - The timestamp the status update writes is a parameter, so the invariant
    that the deletion flag holds exactly when the timestamp is positive is
    not stated.
- Telephony calls are modelled only as their returned counts.
  `MmsUtils.deleteThread` and `deleteMessage` are given as counts, and
  exceptions raised inside the telephony provider are not modelled.
- Exceptions from the local database are not modelled. Every database call is
  taken to return normally. This covers the deleted-status query, `getThreadId`,
  `deleteConversation` in both actions, the fallback's message query and the
  sweep's candidate query. Neither loop catches, so in the source such an
  exception aborts the batch or the sweep: the remaining targets, the toasts,
  the notification refresh and the sweep's notification are skipped. The
  model's "every target is processed" holds only for calls that return.
- Per-message cutoffs are not modelled. Local rows are whole conversations,
  so a cutoff passed to the local delete is recorded in the event log but
  does not keep any messages.
- The SQL query is modelled as a set, not executed. The sweep's query is the
  candidate set, and the cursor's order is a parameter required to list that
  set once each.
- Cursor handling is not modelled. For the telephony fallback, the local
  message rows it reads are a parameter. In the source that query runs after
  the local delete (`DeleteConversationAction.java:213` before `:273`), so the
  rows it reads can only be messages the local delete left behind. The
  parameter is not constrained by that.
- Logging is not modelled. Toast text, the notification channel, the widget
  and the content provider notifications appear only as events.
- The summary string is not modelled. `updateSummary` is modelled as the day
  count it displays.
- The editor's UI is not modelled. This covers the numeric input type, the
  3-character length filter and the cursor placement in
  `onAttachedToHierarchy`.
- AutoDeleteDaysPreference.ParseInt: accepts only the ASCII digits 0-9. Java's `Integer.parseInt` also accepts other Unicode decimal digits.
- AutoDeleteOldConversationsAction.RetentionCutoff: gives the exact cutoff only when `now - days * 86400000` fits in a `long`. Below that, the wrapped value is computed but no property of it is stated. The multiplication itself never wraps for an `int` day count.

=== FILE: auto_delete_days.dfy ===
/** `AutoDeleteDaysPreference`: the settings field for the retention period.
    Whatever text is entered is parsed as a Java `int`, clamped to
    [0, 999], and stored as its decimal string; text that does not parse is
    stored as the default, 14. */
module AutoDeleteDaysPreference {
  import opened JavaTypes

  const MAX_DAYS: int := 999
  const DEFAULT_DAYS: int := 14

  predicate IsDigit(c: char) {
    '0' <= c <= '9'
  }

  predicate AllDigits(s: string) {
    forall i | 0 <= i < |s| :: IsDigit(s[i])
  }

  function DigitChar(d: nat): (c: char)
    requires d < 10
    ensures IsDigit(c) && (c as int) - ('0' as int) == d
  {
    (('0' as int) + d) as char
  }

  /** The value of a string of decimal digits, most significant first. */
  function DigitsValue(s: string): nat
    requires AllDigits(s)
  {
    if |s| == 0 then 0 else DigitsValue(s[..|s| - 1]) * 10 + ((s[|s| - 1] as int) - ('0' as int))
  }

  /** `Integer.parseInt(text)`: an optional `-` or `+`, then at least one
      ASCII digit, with a value in the `int` range; anything else, null
      included, is a `NumberFormatException`, here `None`. */
  function ParseInt(text: Option<string>): (r: Option<Int32>)
    ensures text.None? ==> r.None?
    ensures text.Some? && (text.value == "" || text.value == "-" || text.value == "+") ==> r.None?
    // accepted text is an optional sign followed by digits only
    ensures r.Some? ==> IsDigit(text.value[0]) || text.value[0] == '-' || text.value[0] == '+'
    ensures r.Some? ==> forall i | 1 <= i < |text.value| :: IsDigit(text.value[i])
    ensures r.Some? ==> IsDigit(text.value[|text.value| - 1])
  {
    match text
    case None => None
    case Some(s) =>
      if |s| == 0 then None
      else
        var negative := s[0] == '-';
        var digits := if s[0] == '-' || s[0] == '+' then s[1..] else s;
        if |digits| == 0 || !AllDigits(digits) then None
        else
          assert s[|s| - 1] == digits[|digits| - 1];
          var magnitude: int := DigitsValue(digits);
          var v := if negative then -magnitude else magnitude;
          if INT_MIN <= v <= INT_MAX then Some(v) else None
  }

  /** Text of that shape is accepted exactly when its signed value is an
      `int`, and then gives that value. */
  lemma ParseSignedDigits(sign: string, digits: string)
    requires sign == "" || sign == "-" || sign == "+"
    requires |digits| > 0 && AllDigits(digits)
    ensures sign == "-" ==>
              ParseInt(Some(sign + digits)) == if DigitsValue(digits) <= -INT_MIN then Some(-(DigitsValue(digits) as int)) else None
    ensures sign != "-" ==>
              ParseInt(Some(sign + digits)) == if DigitsValue(digits) <= INT_MAX then Some(DigitsValue(digits)) else None
  {
    var s := sign + digits;
    if sign == "" {
      assert s == digits;
      assert IsDigit(s[0]);
    } else {
      assert s[0] == sign[0] && s[1..] == digits;
    }
  }

  /** The decimal digits of a natural number, without leading zeros. */
  function NatDigits(n: nat): (s: string)
    ensures |s| > 0 && AllDigits(s)
    ensures n > 0 ==> s[0] != '0'
    ensures n < 10 <==> |s| == 1
  {
    if n < 10 then [DigitChar(n)] else NatDigits(n / 10) + [DigitChar(n % 10)]
  }

  /** `String.valueOf(int)`. */
  function DecimalString(n: int): (s: string)
    ensures |s| > 0
    ensures n >= 0 ==> AllDigits(s)
    // canonical: no leading zero, and a negative value is '-' then its digits
    ensures n >= 0 ==> (s[0] == '0' ==> |s| == 1)
    ensures n < 0 ==> s[0] == '-' && |s| >= 2 && AllDigits(s[1..]) && s[1] != '0'
  {
    if n < 0 then "-" + NatDigits(-n) else NatDigits(n)
  }

  lemma {:induction false} NatDigitsValue(n: nat)
    ensures DigitsValue(NatDigits(n)) == n
  {
    var s := NatDigits(n);
    if n < 10 {
      assert s[..|s| - 1] == [];
    } else {
      NatDigitsValue(n / 10);
      assert s[..|s| - 1] == NatDigits(n / 10);
    }
  }

  /** Parsing a number's decimal string gives the number back. */
  lemma ParseDecimalString(n: Int32)
    ensures ParseInt(Some(DecimalString(n))) == Some(n)
  {
    var s := DecimalString(n);
    if n < 0 {
      var magnitude: nat := -(n as int);
      var digits := NatDigits(magnitude);
      NatDigitsValue(magnitude);
      assert s == "-" + digits;
      assert s[0] == '-' && s[1..] == digits;
    } else {
      var digits := NatDigits(n);
      NatDigitsValue(n);
      assert s == digits;
      assert IsDigit(s[0]) && s[0] != '-' && s[0] != '+';
      assert DigitsValue(digits) == n;
    }
  }

  /** The decimal strings of the default and of the bounds. */
  lemma BoundStrings()
    ensures DecimalString(DEFAULT_DAYS) == "14"
    ensures DecimalString(0) == "0"
    ensures DecimalString(MAX_DAYS) == "999"
  {
  }

  /** Appending a digit multiplies the value by ten and adds the digit. */
  lemma DigitsValueSnoc(s: string, c: char)
    requires AllDigits(s) && IsDigit(c)
    ensures AllDigits(s + [c])
    ensures DigitsValue(s + [c]) == DigitsValue(s) * 10 + ((c as int) - ('0' as int))
  {
    assert (s + [c])[..|s|] == s;
  }

  /** The leading nine digits shared by both ends of the `int` range. */
  lemma IntRangePrefix()
    ensures DigitsValue("214748364") == 214748364
  {
    assert DigitsValue("2") == 2 by { DigitsValueSnoc("", '2'); assert "" + ['2'] == "2"; }
    DigitsValueSnoc("2", '1'); assert "2" + ['1'] == "21";
    DigitsValueSnoc("21", '4'); assert "21" + ['4'] == "214";
    DigitsValueSnoc("214", '7'); assert "214" + ['7'] == "2147";
    DigitsValueSnoc("2147", '4'); assert "2147" + ['4'] == "21474";
    DigitsValueSnoc("21474", '8'); assert "21474" + ['8'] == "214748";
    DigitsValueSnoc("214748", '3'); assert "214748" + ['3'] == "2147483";
    DigitsValueSnoc("2147483", '6'); assert "2147483" + ['6'] == "21474836";
    DigitsValueSnoc("21474836", '4'); assert "21474836" + ['4'] == "214748364";
  }

  /** Both ends of the `int` range parse. */
  lemma ParseIntRangeEnds()
    ensures ParseInt(Some("2147483647")) == Some(INT_MAX)
    ensures ParseInt(Some("-2147483648")) == Some(INT_MIN)
  {
    IntRangePrefix();
    DigitsValueSnoc("214748364", '7'); assert "214748364" + ['7'] == "2147483647";
    DigitsValueSnoc("214748364", '8'); assert "214748364" + ['8'] == "2147483648";
    ParseSignedDigits("", "2147483647");
    ParseSignedDigits("-", "2147483648");
  }

  /** One past either end of the `int` range is a `NumberFormatException`,
      not a large value. */
  lemma ParseIntOverflowRejected()
    ensures ParseInt(Some("2147483648")).None?
    ensures ParseInt(Some("-2147483649")).None?
  {
    IntRangePrefix();
    DigitsValueSnoc("214748364", '8'); assert "214748364" + ['8'] == "2147483648";
    DigitsValueSnoc("214748364", '9'); assert "214748364" + ['9'] == "2147483649";
    ParseSignedDigits("", "2147483648");
    ParseSignedDigits("-", "2147483649");
  }

  /** Text with anything but a leading sign and digits is rejected. */
  lemma ParseIntRejectsMalformed()
    ensures ParseInt(Some("abc")).None?
    ensures ParseInt(Some("12a")).None?
    ensures ParseInt(Some("--1")).None?
    ensures ParseInt(Some(" 1")).None?
  {
  }

  /** The value `setText` keeps for a parse result. */
  function ClampDays(parsed: Option<Int32>): int {
    match parsed
    case None => DEFAULT_DAYS
    case Some(v) => if v < 0 then 0 else if v > MAX_DAYS then MAX_DAYS else v
  }

  /** `setText`: the string actually stored for the entered text. */
  function SetText(text: Option<string>): (stored: string)
    // the stored text is the canonical decimal string: digits, no leading zero
    ensures |stored| > 0 && AllDigits(stored) && (stored[0] == '0' ==> |stored| == 1)
    // the stored text always parses to a day count in range
    ensures ParseInt(Some(stored)).Some?
    ensures 0 <= ParseInt(Some(stored)).value <= MAX_DAYS
    // text that does not parse becomes the default
    ensures ParseInt(text).None? ==> stored == "14"
    // out-of-range values are clamped to the nearest bound
    ensures ParseInt(text).Some? && ParseInt(text).value < 0 ==> stored == "0"
    ensures ParseInt(text).Some? && ParseInt(text).value > MAX_DAYS ==> stored == "999"
    // in-range values keep their value
    ensures ParseInt(text).Some? && 0 <= ParseInt(text).value <= MAX_DAYS ==>
              ParseInt(Some(stored)) == ParseInt(text)
  {
    var days := ClampDays(ParseInt(text));
    ParseDecimalString(days);
    BoundStrings();
    DecimalString(days)
  }

  /** A number too large for an `int` is stored as the default, not
      clamped to the maximum. */
  lemma OverflowStoresDefault()
    ensures SetText(Some("2147483648")) == "14"
  {
    ParseIntOverflowRejected();
  }

  /** A value already in canonical form in [0, 999] is stored unchanged. */
  lemma CanonicalValueStoredUnchanged(n: int)
    requires 0 <= n <= MAX_DAYS
    ensures SetText(Some(DecimalString(n))) == DecimalString(n)
  {
    ParseDecimalString(n);
  }

  /** Storing the stored text again changes nothing. */
  lemma SetTextIdempotent(text: Option<string>)
    ensures SetText(Some(SetText(text))) == SetText(text)
  {
    var days := ClampDays(ParseInt(text));
    ParseDecimalString(days);
  }

  /** Signs and leading zeros are not kept: `setText("+007")` stores `"7"`. */
  lemma NonCanonicalTextNormalised()
    ensures SetText(Some("+007")) == "7"
  {
    var digits := "007";
    assert DigitsValue("") == 0;
    assert "0"[..0] == "" && DigitsValue("0") == 0;
    assert "00"[..1] == "0" && DigitsValue("00") == 0;
    assert digits[..2] == "00" && DigitsValue(digits) == 7;
    assert "+007"[1..] == digits;
    assert ParseInt(Some("+007")) == Some(7);
  }

  /** `getText`: the default when nothing, or nothing but an empty string,
      has been stored. */
  function GetText(stored: Option<string>): (r: string)
    ensures |r| > 0
    ensures stored.None? || stored.value == "" ==> r == "14"
    ensures stored.Some? && stored.value != "" ==> r == stored.value
  {
    BoundStrings();
    if stored.None? || stored.value == "" then DecimalString(DEFAULT_DAYS) else stored.value
  }

  /** `updateSummary`: the day count shown, with the default for text that
      does not parse. The summary does not clamp. */
  function SummaryDays(stored: Option<string>): (days: int)
    // stored text that does not parse, null and empty included, shows 14
    ensures ParseInt(stored).None? ==> days == DEFAULT_DAYS
    // stored text that parses shows its value, unclamped
    ensures ParseInt(stored).Some? ==> days == ParseInt(stored).value
  {
    ParseDecimalString(DEFAULT_DAYS);
    BoundStrings();
    ParseInt(Some(GetText(stored))).GetOr(DEFAULT_DAYS)
  }

  /** After `setText` the summary shows the clamped value; with nothing
      stored it shows the default. */
  lemma SummaryAfterSetText(text: Option<string>)
    ensures GetText(Some(SetText(text))) == SetText(text)
    ensures SummaryDays(Some(SetText(text))) == ClampDays(ParseInt(text))
    ensures 0 <= SummaryDays(Some(SetText(text))) <= MAX_DAYS
    ensures SummaryDays(None) == DEFAULT_DAYS
  {
    ParseDecimalString(ClampDays(ParseInt(text)));
    ParseDecimalString(DEFAULT_DAYS);
  }

  /** `onSetInitialValue`: the persisted string, or the default's string,
      passed through `setText`. */
  function InitialValue(persisted: Option<string>): (stored: string)
    ensures persisted.None? ==> stored == "14"
    ensures ParseInt(Some(stored)).Some? && 0 <= ParseInt(Some(stored)).value <= MAX_DAYS
  {
    BoundStrings();
    CanonicalValueStoredUnchanged(DEFAULT_DAYS);
    SetText(Some(persisted.GetOr(DecimalString(DEFAULT_DAYS))))
  }

  /** The initial text is already what `setText` would store: setting it
      again changes nothing, and a canonical persisted value in [0, 999] is
      taken as it is. */
  lemma InitialValueIsSettled(persisted: Option<string>)
    ensures SetText(Some(InitialValue(persisted))) == InitialValue(persisted)
    ensures persisted.Some? && (exists n | 0 <= n <= MAX_DAYS :: persisted.value == DecimalString(n)) ==>
              InitialValue(persisted) == persisted.value
  {
    BoundStrings();
    SetTextIdempotent(Some(persisted.GetOr(DecimalString(DEFAULT_DAYS))));
    if persisted.Some? && (exists n | 0 <= n <= MAX_DAYS :: persisted.value == DecimalString(n)) {
      var n :| 0 <= n <= MAX_DAYS && persisted.value == DecimalString(n);
      CanonicalValueStoredUnchanged(n);
    }
  }
}

=== FILE: auto_delete_old.dfy ===
/** `AutoDeleteOldConversationsAction`: the daily sweep that permanently
    deletes, from the local store only, the soft-deleted conversations whose
    deletion time is at or before a cutoff derived from the retention
    setting. */
module AutoDeleteOldConversationsAction {
  import opened JavaTypes
  import opened Effects
  import opened ConversationStore

  const MILLIS_PER_DAY: int := 24 * 60 * 60 * 1000

  /** The retention setting resolved against the clock: the sweep is
      disabled, or purges up to and including a cutoff timestamp. */
  datatype Cutoff = Disabled | Until(timestamp: Int64)

  /** The retention branch of `executeAction`, with the cutoff computed in
      Java `long` arithmetic: `now - (retentionDays * 24L * 60L * 60L * 1000L)`
      where the `int` is widened before the first multiplication. */
  function RetentionCutoff(retentionDays: Int32, now: Int64): (c: Cutoff)
    ensures c.Disabled? <==> retentionDays < 0
    ensures retentionDays == 0 ==> c == Until(LONG_MAX)
    // no step wraps as long as the exact cutoff is a long
    ensures retentionDays > 0 && now - retentionDays * MILLIS_PER_DAY >= LONG_MIN ==>
              c == Until(now - retentionDays * MILLIS_PER_DAY)
  {
    if retentionDays < 0 then Disabled
    else if retentionDays == 0 then Until(LONG_MAX)
    else Until(SubLong(now, MulLong(MulLong(MulLong(MulLong(retentionDays, 24), 60), 60), 1000)))
  }

  /** The query's WHERE clause: `deleted_status = 1 AND deleted_timestamp > 0
      AND deleted_timestamp <= cutoff`. */
  predicate IsPurgeCandidate(c: Conv, cutoff: int) {
    c.deleted && 0 < c.deletedTimestamp <= cutoff
  }

  /** The ids the query selects. */
  function Candidates(s: Store, cutoff: int): set<string> {
    set id | id in s && IsPurgeCandidate(s[id], cutoff)
  }

  predicate Distinct(scan: seq<string>) {
    forall i, j | 0 <= i < j < |scan| :: scan[i] != scan[j]
  }

  /** The ids a scan returns. */
  function Elements(scan: seq<string>): set<string> {
    set id | id in scan
  }

  /** The cursor returns each selected id exactly once, in some order. */
  predicate IsScanOf(scan: seq<string>, ids: set<string>) {
    Distinct(scan) && Elements(scan) == ids
  }

  /** A list without repetitions has as many elements as its set. */
  lemma {:induction false} DistinctCardinality(scan: seq<string>)
    requires Distinct(scan)
    ensures |Elements(scan)| == |scan|
  {
    if |scan| > 0 {
      var rest := scan[1..];
      assert Distinct(rest) by {
        forall i, j | 0 <= i < j < |rest| ensures rest[i] != rest[j] {
          assert rest[i] == scan[i + 1] && rest[j] == scan[j + 1];
        }
      }
      DistinctCardinality(rest);
      assert scan[0] !in rest by {
        forall i | 0 <= i < |rest| ensures rest[i] != scan[0] {
          assert rest[i] == scan[i + 1];
        }
      }
      assert Elements(scan) == Elements(rest) + {scan[0]} by {
        assert scan == [scan[0]] + rest;
      }
    }
  }

  datatype Purge = Purge(store: Store, deletedCount: nat, events: seq<Event>)

  /** The purge loop: delete every scanned id locally with the cutoff
      `Long.MAX_VALUE`, counting the deletions that succeeded; a failure does
      not stop the loop. `localFails` holds the ids whose local deletion the
      database reports as failed. */
  function PurgeEach(s: Store, scan: seq<string>, localFails: set<string>): (r: Purge)
    ensures |r.events| == |scan|
    ensures r.deletedCount <= |scan|
  {
    if |scan| == 0 then Purge(s, 0, [])
    else
      var (s1, ok) := DeleteConversation(s, scan[0], scan[0] !in localFails);
      var after := PurgeEach(s1, scan[1..], localFails);
      Purge(after.store, after.deletedCount + (if ok then 1 else 0),
            [DeleteLocalConversation(scan[0], LONG_MAX, ok)] + after.events)
  }

  /** The purge removes exactly the scanned ids whose deletion succeeds
      and leaves every other row as it was. */
  lemma {:induction false} PurgeEachRemovesScanned(s: Store, scan: seq<string>, localFails: set<string>)
    ensures var r := PurgeEach(s, scan, localFails);
            && r.store.Keys == s.Keys - (Elements(scan) - localFails)
            && (forall id | id in r.store :: r.store[id] == s[id])
  {
    if |scan| > 0 {
      var id := scan[0];
      var rest := scan[1..];
      var (s1, ok) := DeleteConversation(s, id, id !in localFails);
      PurgeEachRemovesScanned(s1, rest, localFails);
      assert PurgeEach(s, scan, localFails).store == PurgeEach(s1, rest, localFails).store;
      assert Elements(scan) == {id} + Elements(rest) by {
        assert scan == [id] + rest;
      }
    }
  }

  /** The purge's count is the number of rows it removed. */
  lemma {:induction false} PurgeEachCountsRemoved(s: Store, scan: seq<string>, localFails: set<string>)
    ensures var r := PurgeEach(s, scan, localFails);
            r.deletedCount == |s| - |r.store|
  {
    if |scan| > 0 {
      var id := scan[0];
      var (s1, ok) := DeleteConversation(s, id, id !in localFails);
      PurgeEachCountsRemoved(s1, scan[1..], localFails);
      if ok { RemoveOneSize(s, id); }
    }
  }

  /** Each scanned id gets one local deletion, in scan order, which succeeds
      exactly when the row is there and the database does not fail it. Ids
      are distinct, so no deletion affects a later one. */
  lemma {:induction false} PurgeEachEvents(s: Store, scan: seq<string>, localFails: set<string>)
    requires Distinct(scan)
    ensures var r := PurgeEach(s, scan, localFails);
            forall i | 0 <= i < |scan| ::
              r.events[i] == DeleteLocalConversation(scan[i], LONG_MAX, scan[i] in s && scan[i] !in localFails)
  {
    if |scan| > 0 {
      var id := scan[0];
      var rest := scan[1..];
      assert Distinct(rest) by {
        forall i, j | 0 <= i < j < |rest| ensures rest[i] != rest[j] {
          assert rest[i] == scan[i + 1] && rest[j] == scan[j + 1];
        }
      }
      var (s1, ok) := DeleteConversation(s, id, id !in localFails);
      PurgeEachEvents(s1, rest, localFails);
      var r := PurgeEach(s, scan, localFails);
      var after := PurgeEach(s1, rest, localFails);
      assert r.events == [DeleteLocalConversation(id, LONG_MAX, ok)] + after.events;
      forall i | 1 <= i < |scan|
        ensures r.events[i] == DeleteLocalConversation(scan[i], LONG_MAX, scan[i] in s && scan[i] !in localFails)
      {
        assert scan[i] == rest[i - 1] && scan[i] != id;
        assert r.events[i] == after.events[i - 1];
      }
    }
  }

  lemma PurgeEventsAreLocal(s: Store, scan: seq<string>, localFails: set<string>)
    ensures forall e | e in PurgeEach(s, scan, localFails).events ::
              e.DeleteLocalConversation? && e.cutoff == LONG_MAX
  {
  }

  /** The sweep's log: one `Long.MAX_VALUE` local deletion per scanned id,
      in scan order, succeeding unless the database fails it, then the
      list-changed notification when anything was deleted. */
  predicate LogsScan(events: seq<Event>, scan: seq<string>, localFails: set<string>, deletedCount: nat) {
    && |events| == |scan| + (if deletedCount > 0 then 1 else 0)
    && (forall i | 0 <= i < |scan| ::
          events[i] == DeleteLocalConversation(scan[i], LONG_MAX, scan[i] !in localFails))
    && (deletedCount > 0 ==> events[|scan|] == NotifyConversationListChanged)
  }

  datatype SweepResult = SweepResult(store: Store, deletedCount: nat, events: seq<Event>)

  /** The end of `executeAction`: the list-changed notification follows the
      purge when anything was deleted. */
  function Notified(p: Purge): (r: SweepResult)
    requires forall e | e in p.events :: e.DeleteLocalConversation?
    ensures r.store == p.store && r.deletedCount == p.deletedCount
    ensures NotifyConversationListChanged in r.events <==> p.deletedCount > 0
    ensures forall e | e in r.events :: e in p.events || e == NotifyConversationListChanged
    // the purge's events come first, then the notification if any
    ensures |r.events| == |p.events| + (if p.deletedCount > 0 then 1 else 0)
    ensures r.events[..|p.events|] == p.events
    ensures p.deletedCount > 0 ==> r.events[|p.events|] == NotifyConversationListChanged
  {
    SweepResult(p.store, p.deletedCount,
                p.events + if p.deletedCount > 0 then [NotifyConversationListChanged] else [])
  }

  /** `executeAction`. `scan` is the order in which the query returns the
      selected ids. */
  function Sweep(s: Store, retentionDays: Int32, now: Int64, scan: seq<string>, localFails: set<string>): (r: SweepResult)
    requires RetentionCutoff(retentionDays, now).Until? ==>
               IsScanOf(scan, Candidates(s, RetentionCutoff(retentionDays, now).timestamp))
    // negative retention: nothing is read, deleted or reported
    ensures retentionDays < 0 ==> r == SweepResult(s, 0, [])
    // exactly the candidates whose local deletion succeeds are removed
    ensures retentionDays >= 0 ==>
              var cutoff := RetentionCutoff(retentionDays, now).timestamp;
              && r.store.Keys == s.Keys - (Candidates(s, cutoff) - localFails)
              && r.deletedCount <= |Candidates(s, cutoff)|
    // what stays is unchanged, and the count is the number of rows removed
    ensures forall id | id in r.store :: id in s && r.store[id] == s[id]
    ensures r.deletedCount == |s| - |r.store|
    // the list-changed notification fires exactly when something was deleted
    ensures NotifyConversationListChanged in r.events <==> r.deletedCount > 0
    // local deletions take every message, and telephony is never called
    ensures forall e | e in r.events && e.DeleteLocalConversation? :: e.cutoff == LONG_MAX
    ensures NoTelephony(r.events)
    // every candidate is deleted with `Long.MAX_VALUE` in scan order, then the list is notified
    ensures retentionDays >= 0 ==> LogsScan(r.events, scan, localFails, r.deletedCount)
  {
    match RetentionCutoff(retentionDays, now)
    case Disabled => SweepResult(s, 0, [])
    case Until(cutoff) =>
      DistinctCardinality(scan);
      PurgeEachRemovesScanned(s, scan, localFails);
      PurgeEachCountsRemoved(s, scan, localFails);
      PurgeEventsAreLocal(s, scan, localFails);
      PurgeEachEvents(s, scan, localFails);
      var p := PurgeEach(s, scan, localFails);
      var r := Notified(p);
      SweepLog(s, cutoff, scan, localFails, p, r);
      LogsScanFacts(r.events, scan, localFails, r.deletedCount);
      r
  }

  /** What a log of that shape says about notifications and telephony. */
  lemma LogsScanFacts(events: seq<Event>, scan: seq<string>, localFails: set<string>, deletedCount: nat)
    requires LogsScan(events, scan, localFails, deletedCount)
    ensures NotifyConversationListChanged in events <==> deletedCount > 0
    ensures forall e | e in events && e.DeleteLocalConversation? :: e.cutoff == LONG_MAX
    ensures NoTelephony(events)
  {
    forall e | e in events
      ensures e == NotifyConversationListChanged || (e.DeleteLocalConversation? && e.cutoff == LONG_MAX)
    {
      var k :| 0 <= k < |events| && events[k] == e;
      if k < |scan| {
        assert e == DeleteLocalConversation(scan[k], LONG_MAX, scan[k] !in localFails);
      }
    }
  }

  /** The sweep's log from the purge's: every scanned candidate exists, so
      its deletion succeeds exactly when the database does not fail it. */
  lemma SweepLog(s: Store, cutoff: int, scan: seq<string>, localFails: set<string>, p: Purge, r: SweepResult)
    requires IsScanOf(scan, Candidates(s, cutoff))
    requires |p.events| == |scan|
    requires forall i | 0 <= i < |scan| ::
               p.events[i] == DeleteLocalConversation(scan[i], LONG_MAX, scan[i] in s && scan[i] !in localFails)
    requires r.deletedCount == p.deletedCount
    requires |r.events| == |p.events| + (if p.deletedCount > 0 then 1 else 0)
    requires r.events[..|p.events|] == p.events
    requires p.deletedCount > 0 ==> r.events[|p.events|] == NotifyConversationListChanged
    ensures LogsScan(r.events, scan, localFails, r.deletedCount)
  {
    forall i | 0 <= i < |scan|
      ensures r.events[i] == DeleteLocalConversation(scan[i], LONG_MAX, scan[i] !in localFails)
    {
      assert scan[i] in Elements(scan);
      assert r.events[i] == r.events[..|p.events|][i];
    }
  }

  /** Zero retention selects every soft-deleted conversation with a
      positive deletion timestamp, however recent. */
  lemma ZeroRetentionSelectsAllSoftDeleted(s: Store, now: Int64)
    ensures Candidates(s, RetentionCutoff(0, now).timestamp)
            == set id | id in s && s[id].deleted && s[id].deletedTimestamp > 0
  {
  }

  /** The cutoff is inclusive: a conversation deleted exactly `retentionDays`
      days before `now` is selected, one deleted a millisecond later is not. */
  lemma RetentionBoundaryInclusive(retentionDays: Int32, now: Int64, c: Conv)
    requires retentionDays > 0 && c.deleted
    requires now - retentionDays * MILLIS_PER_DAY >= LONG_MIN
    ensures c.deletedTimestamp == now - retentionDays * MILLIS_PER_DAY && c.deletedTimestamp > 0 ==>
              IsPurgeCandidate(c, RetentionCutoff(retentionDays, now).timestamp)
    ensures c.deletedTimestamp == now - retentionDays * MILLIS_PER_DAY + 1 ==>
              !IsPurgeCandidate(c, RetentionCutoff(retentionDays, now).timestamp)
  {
  }

  /** A longer retention period selects a subset of what a shorter one
      selects. */
  lemma LongerRetentionSelectsFewer(s: Store, shorter: Int32, longer: Int32, now: Int64)
    requires 0 < shorter <= longer
    requires now - longer * MILLIS_PER_DAY >= LONG_MIN
    ensures Candidates(s, RetentionCutoff(longer, now).timestamp)
            <= Candidates(s, RetentionCutoff(shorter, now).timestamp)
  {
    assert longer * MILLIS_PER_DAY >= shorter * MILLIS_PER_DAY;
  }

  /** Active conversations, and soft-deleted ones newer than the cutoff,
      survive the sweep untouched. */
  lemma SweepKeepsNonCandidates(s: Store, retentionDays: Int32, now: Int64, scan: seq<string>,
                                localFails: set<string>, id: string)
    requires RetentionCutoff(retentionDays, now).Until? ==>
               IsScanOf(scan, Candidates(s, RetentionCutoff(retentionDays, now).timestamp))
    requires id in s
    requires retentionDays < 0 || !IsPurgeCandidate(s[id], RetentionCutoff(retentionDays, now).timestamp)
    ensures var r := Sweep(s, retentionDays, now, scan, localFails);
            id in r.store && r.store[id] == s[id]
  {
  }

  /** Three conversations soft-deleted 20, 10 and 5 days ago, with a 14-day
      retention: only the first is old enough to be selected. */
  lemma ThreeConversationCandidates(s: Store, now: Int64)
    requires now >= 30 * MILLIS_PER_DAY
    requires s.Keys == {"a", "b", "c"}
    requires s["a"].deleted && s["a"].deletedTimestamp == now - 20 * MILLIS_PER_DAY
    requires s["b"].deleted && s["b"].deletedTimestamp == now - 10 * MILLIS_PER_DAY
    requires s["c"].deleted && s["c"].deletedTimestamp == now - 5 * MILLIS_PER_DAY
    ensures RetentionCutoff(14, now) == Until(now - 14 * MILLIS_PER_DAY)
    ensures Candidates(s, now - 14 * MILLIS_PER_DAY) == {"a"}
  {
  }

  /** The same three conversations swept with the first one's deletion
      succeeding: it is purged and the other two stay. */
  lemma ThreeConversationScenario(s: Store, now: Int64)
    requires now >= 30 * MILLIS_PER_DAY
    requires s.Keys == {"a", "b", "c"}
    requires s["a"].deleted && s["a"].deletedTimestamp == now - 20 * MILLIS_PER_DAY
    requires s["b"].deleted && s["b"].deletedTimestamp == now - 10 * MILLIS_PER_DAY
    requires s["c"].deleted && s["c"].deletedTimestamp == now - 5 * MILLIS_PER_DAY
    ensures var r := Sweep(s, 14, now, ["a"], {});
            r.deletedCount == 1 && r.store.Keys == {"b", "c"}
  {
  }
}

=== FILE: conversation_store.dfy ===
/** The local conversation table, reduced to the columns the deletion
    pipeline reads, and the database operations whose bodies are not part of
    this model (`BugleDatabaseOperations.getThreadId`, `deleteConversation`
    and `updateConversationDeletedStatusInTransaction`). Their outcomes enter
    as parameters; only what the callers rely on is fixed here. */
module ConversationStore {
  import opened JavaTypes

  /** One conversation row: the `deleted_status` flag, the
      `deleted_timestamp` column and the telephony thread id. */
  datatype Conv = Conv(deleted: bool, deletedTimestamp: Int64, threadId: Int64)

  /** The conversation table keyed by conversation id. */
  type Store = map<string, Conv>

  /** The row query `deleted_status` for `_id = id`: an absent row reads as
      "not deleted", because the cursor is empty. */
  predicate IsDeleted(s: Store, id: string) {
    id in s && s[id].deleted
  }

  /** `getThreadId`: the row's telephony thread id, or the negative
      sentinel -1 when there is no row. */
  function ThreadId(s: Store, id: string): (t: Int64)
    ensures id !in s ==> t < 0
    ensures id in s ==> t == s[id].threadId
  {
    if id in s then s[id].threadId else -1
  }

  /** `updateConversationDeletedStatusInTransaction`: an UPDATE on one row.
      The value written to `deleted_timestamp` is a parameter, since how the
      operation chooses it is not part of this model. A missing row is left
      missing. */
  function SetDeletedStatus(s: Store, id: string, isDeleted: bool, timestamp: Int64): (s': Store)
    ensures s'.Keys == s.Keys
    ensures id in s ==> s'[id].deleted == isDeleted && s'[id].threadId == s[id].threadId
    ensures forall other | other in s && other != id :: s'[other] == s[other]
  {
    if id in s then s[id := s[id].(deleted := isDeleted, deletedTimestamp := timestamp)] else s
  }

  /** `deleteConversation(db, id, cutoff)`: `succeeds` is whether the
      database operation would remove the row; a row that is not there is
      never reported removed. On success the row is gone and nothing else
      changed; on failure nothing changed. */
  function DeleteConversation(s: Store, id: string, succeeds: bool): (r: (Store, bool))
    ensures r.1 <==> succeeds && id in s
    ensures r.0.Keys == if r.1 then s.Keys - {id} else s.Keys
    ensures forall other | other in r.0 :: other in s && r.0[other] == s[other]
  {
    if succeeds && id in s then (s - {id}, true) else (s, false)
  }

  /** Once the row is gone its thread id can no longer be read: the lookup
      falls back to the sentinel. This is why the action reads the thread
      id before deleting the row. */
  lemma ThreadIdGoneAfterDelete(s: Store, id: string, succeeds: bool)
    requires DeleteConversation(s, id, succeeds).1
    ensures ThreadId(DeleteConversation(s, id, succeeds).0, id) < 0
  {
  }

  /** Removing one present row shrinks the table by exactly one. */
  lemma RemoveOneSize(s: Store, id: string)
    requires id in s
    ensures |s - {id}| == |s| - 1
  {
  }
}

=== FILE: delete_conversation.dfy ===
/** `DeleteConversationAction`: for each target conversation, either marks
    it soft-deleted or permanently deletes it, first from the local store and
    then from the telephony provider, and counts successes and failures. */
module DeleteConversationAction {
  import opened JavaTypes
  import opened Effects
  import opened ConversationStore
  import Update = UpdateConversationDeletedStatusAction
  import opened DeletionBatch

  /** One target: the conversation id (possibly empty) and the cutoff the
      permanent deletion passes to the store and to telephony. */
  datatype TargetConversation = TargetConversation(id: string, cutoffTimestamp: Int64)

  /** One row of the local messages table read by the per-message fallback:
      its `sms_message_uri` (null when absent) and the count
      `MmsUtils.deleteMessage` returns for it. */
  datatype MessageRow = MessageRow(smsMessageUri: Option<string>, deleteCount: int)

  /** What the collaborators whose bodies are not modelled return for one
      target: the value and outcome of the soft-delete update, whether the
      local `deleteConversation` removes the row, the count returned by
      `MmsUtils.deleteThread`, and the message rows read by the fallback. */
  datatype Outcomes = Outcomes(
    softDeleteTimestamp: Int64,
    softDeleteThrows: bool,
    localDeleteSucceeds: bool,
    threadDeleteCount: int,
    messageRows: seq<MessageRow>)

  /** `Uri.parse` rejects only a null string. */
  predicate Parses(row: MessageRow) {
    row.smsMessageUri.Some?
  }

  /** Every row whose URI parses was deleted from telephony. */
  predicate AllParsedDeleted(rows: seq<MessageRow>) {
    forall i | 0 <= i < |rows| :: Parses(rows[i]) ==> rows[i].deleteCount > 0
  }

  /** The number of rows whose URI parses. */
  function ParsedCount(rows: seq<MessageRow>): nat {
    if |rows| == 0 then 0 else (if Parses(rows[0]) then 1 else 0) + ParsedCount(rows[1..])
  }

  /** The telephony call made for a row whose URI parses. */
  function SentFor(row: MessageRow): Event
    requires Parses(row)
  {
    TelephonyDeleteMessage(row.smsMessageUri.value, row.deleteCount)
  }

  /** The rows whose URI parses, in cursor order. */
  function ParsedRows(rows: seq<MessageRow>): (parsed: seq<MessageRow>)
    ensures |parsed| == ParsedCount(rows)
    ensures forall i | 0 <= i < |parsed| :: Parses(parsed[i])
  {
    if |rows| == 0 then []
    else (if Parses(rows[0]) then [rows[0]] else []) + ParsedRows(rows[1..])
  }

  datatype MessageDeletion = MessageDeletion(parsed: nat, deleted: nat, events: seq<Event>)

  /** The two loops of `deleteConversationMessagesFromTelephony`: collect the
      parsable URIs, delete each one, and count the deletions that returned
      a positive count. */
  function DeleteMessages(rows: seq<MessageRow>): (r: MessageDeletion)
    ensures r.parsed == ParsedCount(rows)
    ensures r.deleted <= r.parsed
    ensures r.deleted == r.parsed <==> AllParsedDeleted(rows)
    ensures |r.events| == r.parsed
    ensures forall i | 0 <= i < |r.events| :: r.events[i].TelephonyDeleteMessage?
  {
    if |rows| == 0 then MessageDeletion(0, 0, [])
    else
      var rest := DeleteMessages(rows[1..]);
      assert AllParsedDeleted(rows) <==>
             (Parses(rows[0]) ==> rows[0].deleteCount > 0) && AllParsedDeleted(rows[1..]) by {
        if AllParsedDeleted(rows[1..]) && (Parses(rows[0]) ==> rows[0].deleteCount > 0) {
          forall i | 0 <= i < |rows| && Parses(rows[i]) ensures rows[i].deleteCount > 0 {
            if i > 0 { assert rows[i] == rows[1..][i - 1]; }
          }
        }
      }
      match rows[0].smsMessageUri
      case None => rest
      case Some(uri) =>
        var count := rows[0].deleteCount;
        MessageDeletion(rest.parsed + 1, rest.deleted + (if count > 0 then 1 else 0),
                        [TelephonyDeleteMessage(uri, count)] + rest.events)
  }

  /** Exactly the rows whose URI parses are sent to telephony, each with
      its own URI and count. */
  lemma {:induction false} DeleteMessagesSendsParsedRows(rows: seq<MessageRow>)
    ensures forall i | 0 <= i < |rows| && Parses(rows[i]) :: SentFor(rows[i]) in DeleteMessages(rows).events
    ensures forall e | e in DeleteMessages(rows).events ::
              exists i | 0 <= i < |rows| :: Parses(rows[i]) && e == SentFor(rows[i])
  {
    if |rows| > 0 {
      var rest := rows[1..];
      DeleteMessagesSendsParsedRows(rest);
      var events := DeleteMessages(rows).events;
      var restEvents := DeleteMessages(rest).events;
      assert forall e | e in restEvents :: e in events;
      forall i | 0 <= i < |rows| && Parses(rows[i]) ensures SentFor(rows[i]) in events {
        if i > 0 {
          assert rows[i] == rest[i - 1];
        }
      }
      forall e | e in events ensures exists i | 0 <= i < |rows| :: Parses(rows[i]) && e == SentFor(rows[i]) {
        if e in restEvents {
          var j :| 0 <= j < |rest| && Parses(rest[j]) && e == SentFor(rest[j]);
          assert rows[j + 1] == rest[j];
        } else {
          assert Parses(rows[0]) && e == SentFor(rows[0]);
        }
      }
    }
  }

  /** The calls go out in cursor order: the i-th call is the one for the
      i-th row whose URI parses. */
  lemma {:induction false} DeleteMessagesInRowOrder(rows: seq<MessageRow>)
    ensures |DeleteMessages(rows).events| == |ParsedRows(rows)|
    ensures forall i | 0 <= i < |ParsedRows(rows)| :: DeleteMessages(rows).events[i] == SentFor(ParsedRows(rows)[i])
  {
    if |rows| > 0 {
      DeleteMessagesInRowOrder(rows[1..]);
      var events := DeleteMessages(rows).events;
      var restEvents := DeleteMessages(rows[1..]).events;
      var parsed := ParsedRows(rows);
      var restParsed := ParsedRows(rows[1..]);
      if Parses(rows[0]) {
        assert events == [SentFor(rows[0])] + restEvents;
        assert parsed == [rows[0]] + restParsed;
        forall i | 1 <= i < |parsed| ensures events[i] == SentFor(parsed[i]) {
          assert events[i] == restEvents[i - 1] && parsed[i] == restParsed[i - 1];
        }
      } else {
        assert events == restEvents && parsed == restParsed;
      }
    }
  }

  /** `deleteConversationMessagesFromTelephony`: succeeds when every parsed
      URI was deleted. */
  function DeleteMessagesFromTelephony(rows: seq<MessageRow>): (r: (bool, seq<Event>))
    ensures r.0 <==> AllParsedDeleted(rows)
    ensures |rows| == 0 ==> r.0 && r.1 == []
    ensures |r.1| == ParsedCount(rows)
    ensures forall i | 0 <= i < |rows| && Parses(rows[i]) :: SentFor(rows[i]) in r.1
    ensures forall e | e in r.1 :: exists i | 0 <= i < |rows| :: Parses(rows[i]) && e == SentFor(rows[i])
    // one call per parsed row, in cursor order
    ensures forall i | 0 <= i < |ParsedRows(rows)| :: r.1[i] == SentFor(ParsedRows(rows)[i])
  {
    DeleteMessagesSendsParsedRows(rows);
    DeleteMessagesInRowOrder(rows);
    var d := DeleteMessages(rows);
    (d.parsed == d.deleted, d.events)
  }

  datatype Deletion = Deletion(store: Store, ok: bool, events: seq<Event>)

  /** The permanent-deletion branch is taken when the conversation is
      already soft-deleted, or when retention is zero. */
  predicate TakesPermanentPath(s: Store, retentionDays: Int32, id: string) {
    IsDeleted(s, id) || retentionDays == 0
  }

  /** No telephony call asks for a negative thread id, and no toast is
      shown: both belong to the batch or are forbidden per conversation. */
  predicate WellFormedPerConversation(events: seq<Event>) {
    forall e | e in events :: !e.IsToast() && (e.TelephonyDeleteThread? ==> e.threadId >= 0)
  }

  lemma {:induction false} WellFormedConcat(a: seq<Event>, b: seq<Event>)
    requires WellFormedPerConversation(a) && WellFormedPerConversation(b)
    ensures WellFormedPerConversation(a + b)
  {
  }

  /** The telephony step after a successful local delete: the whole thread
      when its id is valid, otherwise message by message. */
  function DeleteFromTelephony(threadId: Int64, cutoff: Int64, o: Outcomes): (r: (bool, seq<Event>))
    ensures threadId >= 0 ==>
              (r.0 <==> o.threadDeleteCount > 0)
              && r.1 == [TelephonyDeleteThread(threadId, cutoff, o.threadDeleteCount)]
    ensures threadId < 0 ==>
              (r.0 <==> AllParsedDeleted(o.messageRows))
              && |r.1| == ParsedCount(o.messageRows)
              && forall e | e in r.1 :: e.TelephonyDeleteMessage?
    // a negative id sends exactly the per-message calls of the fallback
    ensures threadId < 0 ==> r == DeleteMessagesFromTelephony(o.messageRows)
    ensures WellFormedPerConversation(r.1)
  {
    if threadId >= 0 then
      var count := MmsDeleteThread(threadId, o);
      (count > 0, [TelephonyDeleteThread(threadId, cutoff, count)])
    else
      var (allDeleted, events) := DeleteMessagesFromTelephony(o.messageRows);
      assert forall i | 0 <= i < |events| :: events[i].TelephonyDeleteMessage?;
      (allDeleted, events)
  }

  /** `MmsUtils.deleteThread`, which throws on a negative thread id. */
  function MmsDeleteThread(threadId: Int64, o: Outcomes): int
    requires threadId >= 0
  {
    o.threadDeleteCount
  }

  /** The permanent-deletion part of `deleteConversationInternal`: tear down
      the notification channel, read the thread id, delete the local row,
      and only if that worked notify listeners and delete from telephony. */
  function PermanentDelete(s: Store, t: TargetConversation, o: Outcomes): (r: Deletion)
    // the thread id is read from the store as it was, before the local delete
    ensures |r.events| >= 3
    ensures r.events[..3] == [DeleteNotificationChannel(t.id), QueryThreadId(t.id, ThreadId(s, t.id)),
                              DeleteLocalConversation(t.id, t.cutoffTimestamp,
                                                      o.localDeleteSucceeds && t.id in s)]
    ensures r.store == DeleteConversation(s, t.id, o.localDeleteSucceeds).0
    // a failed local delete is a failure that returns at once: nothing is
    // notified after it and telephony is never touched
    ensures !(o.localDeleteSucceeds && t.id in s) ==> !r.ok && r.store == s && r.events == r.events[..3] && NoTelephony(r.events)
    // after a local delete the row stays gone whatever telephony reports
    ensures o.localDeleteSucceeds && t.id in s ==>
              && t.id !in r.store
              && |r.events| >= 5
              && r.events[3..5] == [NotifyConversationListChanged, NotifyWidgetConversationDeleted(t.id)]
              && (r.ok, r.events[5..]) == DeleteFromTelephony(ThreadId(s, t.id), t.cutoffTimestamp, o)
    ensures WellFormedPerConversation(r.events)
  {
    var threadId := ThreadId(s, t.id);
    var (s1, localOk) := DeleteConversation(s, t.id, o.localDeleteSucceeds);
    var local := [DeleteNotificationChannel(t.id), QueryThreadId(t.id, threadId),
                  DeleteLocalConversation(t.id, t.cutoffTimestamp, localOk)];
    if !localOk then Deletion(s1, false, local)
    else
      var notified := local + [NotifyConversationListChanged, NotifyWidgetConversationDeleted(t.id)];
      var (ok, telephony) := DeleteFromTelephony(threadId, t.cutoffTimestamp, o);
      Deletion(s1, ok, notified + telephony)
  }

  /** The soft-delete branch of `deleteConversationInternal`: request the
      status update and report success at once, whatever the update does. */
  function SoftDelete(s: Store, t: TargetConversation, o: Outcomes): (r: Deletion)
    requires |t.id| > 0
    ensures r.ok
    ensures r.store == Update.ExecuteAction(s, Update.DeleteRequest(t.id),
                                            o.softDeleteTimestamp, o.softDeleteThrows).store
    ensures |r.events| >= 1 && r.events[0] == RequestSoftDelete(t.id)
    // the request is followed by the status update's own log
    ensures r.events[1..] == Update.ExecuteAction(s, Update.DeleteRequest(t.id),
                                                  o.softDeleteTimestamp, o.softDeleteThrows).events
    ensures NoPermanentDeletion(r.events)
    ensures WellFormedPerConversation(r.events)
  {
    var soft := Update.ExecuteAction(s, Update.DeleteRequest(t.id),
                                     o.softDeleteTimestamp, o.softDeleteThrows);
    assert NoPermanentDeletion([RequestSoftDelete(t.id)] + soft.events) by {
      ConcatPreserves([RequestSoftDelete(t.id)], soft.events);
    }
    assert WellFormedPerConversation([RequestSoftDelete(t.id)] + soft.events) by {
      WellFormedConcat([RequestSoftDelete(t.id)], soft.events);
    }
    Deletion(soft.store, true, [RequestSoftDelete(t.id)] + soft.events)
  }

  /** A branch's deletion preceded by the read of the deleted status. */
  function AfterStatusRead(id: string, d: Deletion): (r: Deletion)
    ensures r.store == d.store && r.ok == d.ok
    ensures |r.events| >= 1 && r.events[0] == QueryDeletedStatus(id) && r.events[1..] == d.events
    ensures NoPermanentDeletion(d.events) ==> NoPermanentDeletion(r.events)
    ensures WellFormedPerConversation(d.events) ==> WellFormedPerConversation(r.events)
  {
    var events := [QueryDeletedStatus(id)] + d.events;
    assert NoPermanentDeletion(d.events) ==> NoPermanentDeletion(events) by {
      ConcatPreserves([QueryDeletedStatus(id)], d.events);
    }
    assert WellFormedPerConversation(d.events) ==> WellFormedPerConversation(events) by {
      if WellFormedPerConversation(d.events) {
        WellFormedConcat([QueryDeletedStatus(id)], d.events);
      }
    }
    assert events[1..] == d.events;
    Deletion(d.store, d.ok, events)
  }

  /** `deleteConversationInternal`. */
  function DeleteConversationInternal(s: Store, retentionDays: Int32, t: TargetConversation, o: Outcomes): (r: Deletion)
    // an empty id fails without reading or writing anything
    ensures |t.id| == 0 ==> !r.ok && r.store == s && r.events == []
    // an active conversation with non-zero retention is only soft-deleted
    ensures |t.id| > 0 && !TakesPermanentPath(s, retentionDays, t.id) ==>
              && r.ok && NoPermanentDeletion(r.events)
              && |r.events| >= 1 && r.events[0] == QueryDeletedStatus(t.id)
              && Deletion(r.store, r.ok, r.events[1..]) == SoftDelete(s, t, o)
    // otherwise the conversation is deleted permanently
    ensures |t.id| > 0 && TakesPermanentPath(s, retentionDays, t.id) ==>
              && |r.events| >= 1 && r.events[0] == QueryDeletedStatus(t.id)
              && Deletion(r.store, r.ok, r.events[1..]) == PermanentDelete(s, t, o)
    ensures WellFormedPerConversation(r.events)
  {
    if |t.id| == 0 then Deletion(s, false, [])
    else if !IsDeleted(s, t.id) && retentionDays != 0 then AfterStatusRead(t.id, SoftDelete(s, t, o))
    else AfterStatusRead(t.id, PermanentDelete(s, t, o))
  }

  /** Deleting one conversation leaves every other row exactly as it was. */
  lemma DeleteTouchesOnlyTarget(s: Store, d: Int32, t: TargetConversation, o: Outcomes, other: string)
    requires other != t.id
    ensures var r := DeleteConversationInternal(s, d, t, o);
            (other in r.store <==> other in s) && (other in s ==> r.store[other] == s[other])
  {
  }

  /** Soft delete is an edge of the state machine: a successful soft delete
      of a present active conversation leaves it soft-deleted and present,
      and a second delete request then takes the permanent path. */
  lemma SoftDeleteThenPermanent(s: Store, d: Int32, t: TargetConversation, o1: Outcomes, o2: Outcomes)
    requires |t.id| > 0 && t.id in s && !s[t.id].deleted && d != 0
    requires !o1.softDeleteThrows
    ensures var r1 := DeleteConversationInternal(s, d, t, o1);
            && t.id in r1.store && IsDeleted(r1.store, t.id)
            && TakesPermanentPath(r1.store, d, t.id)
            && (o2.localDeleteSucceeds ==> t.id !in DeleteConversationInternal(r1.store, d, t, o2).store)
  {
  }

  /** The permanent path never requests a soft delete. */
  lemma PermanentPathSkipsSoftDelete(s: Store, t: TargetConversation, o: Outcomes)
    ensures RequestSoftDelete(t.id) !in PermanentDelete(s, t, o).events
  {
  }

  /** With zero retention an active conversation skips the soft-delete state
      and is removed from the local store in the same call. */
  lemma ZeroRetentionDeletesImmediately(s: Store, t: TargetConversation, o: Outcomes)
    requires |t.id| > 0 && t.id in s && o.localDeleteSucceeds
    ensures var r := DeleteConversationInternal(s, 0, t, o);
            t.id !in r.store && RequestSoftDelete(t.id) !in r.events
  {
    var r := DeleteConversationInternal(s, 0, t, o);
    var p := PermanentDelete(s, t, o);
    PermanentPathSkipsSoftDelete(s, t, o);
    assert r.events == [QueryDeletedStatus(t.id)] + p.events;
  }

  /** The step the batch applies: `deleteConversationInternal` under the
      current retention setting: its new store, its result and its events. */
  function DeleteStep(retentionDays: Int32): (Store, TargetConversation, Outcomes) -> (Store, bool, seq<Event>) {
    (s: Store, t: TargetConversation, o: Outcomes) =>
      var r := DeleteConversationInternal(s, retentionDays, t, o); (r.store, r.ok, r.events)
  }

  /** No conversation's own events show a toast. */
  lemma StepShowsNoToasts(retentionDays: Int32)
    ensures forall s: Store, t: TargetConversation, o: Outcomes :: NoToasts(DeleteStep(retentionDays)(s, t, o).2)
  {
    forall s: Store, t: TargetConversation, o: Outcomes
      ensures NoToasts(DeleteStep(retentionDays)(s, t, o).2)
    {
      var r := DeleteConversationInternal(s, retentionDays, t, o);
      assert DeleteStep(retentionDays)(s, t, o).2 == r.events;
    }
  }

  /** `doBackgroundWork`: the batch loop over `deleteConversationInternal`.
      Retention is read once for the batch; `outcomes[i]` holds the
      collaborators' answers for `targets[i]`. */
  method DoBackgroundWork(s: Store, retentionDays: Int32, targets: seq<TargetConversation>,
                          outcomes: seq<Outcomes>) returns (r: BatchResult)
    requires |outcomes| == |targets|
    ensures |targets| == 0 ==> r == BatchResult(s, 0, 0, [], [])
    ensures r.successCount + r.failCount == |targets|
    ensures |r.results| == |targets| && r.successCount == CountTrue(r.results)
    ensures forall j | 0 <= j < |targets| ::
              r.results[j] == ResultAt(DeleteStep(retentionDays), s, targets, outcomes, j)
    ensures r.store == StoreAfter(DeleteStep(retentionDays), s, targets, outcomes, |targets|)
    // every conversation's events, in order, then the toasts and the refresh
    ensures |targets| > 0 ==>
              r.events == EventsAfter(DeleteStep(retentionDays), s, targets, outcomes, |targets|)
                          + Summary(r.successCount, r.failCount)
    // so every toast comes after the last conversation's events
    ensures |targets| > 0 ==> NoToasts(r.events[..|r.events| - |Summary(r.successCount, r.failCount)|])
  {
    r := RunBatch(DeleteStep(retentionDays), s, targets, outcomes);
    ResultsInOrder(DeleteStep(retentionDays), s, targets, outcomes, |targets|);
    StepShowsNoToasts(retentionDays);
    StepsShowNoToasts(DeleteStep(retentionDays), s, targets, outcomes, |targets|);
    if |targets| > 0 {
      var perTarget := EventsAfter(DeleteStep(retentionDays), s, targets, outcomes, |targets|);
      assert r.events[..|perTarget|] == perTarget;
    }
  }
}

=== FILE: deletion_batch.dfy ===
/** The loop of `DeleteConversationAction.doBackgroundWork`: every target
    is processed in order against the store the previous ones left, whatever
    they returned, and the results are counted. The per-target step is a
    parameter here so that the loop's reasoning is independent of it; it
    returns the new store, its result and the events it caused. */
module DeletionBatch {
  import opened Effects
  import opened ConversationStore

  /** The number of `true` entries. */
  function CountTrue(bs: seq<bool>): (n: nat)
    ensures n <= |bs|
  {
    if |bs| == 0 then 0 else CountTrue(bs[..|bs| - 1]) + (if bs[|bs| - 1] then 1 else 0)
  }

  /** The store after the first `k` targets were processed in order. */
  function StoreAfter<T, O>(step: (Store, T, O) -> (Store, bool, seq<Event>), s: Store, targets: seq<T>, outcomes: seq<O>, k: nat): Store
    requires |outcomes| == |targets| && k <= |targets|
  {
    if k == 0 then s
    else step(StoreAfter(step, s, targets, outcomes, k - 1), targets[k - 1], outcomes[k - 1]).0
  }

  /** What target `j` returns on the store the targets before it left. */
  function ResultAt<T, O>(step: (Store, T, O) -> (Store, bool, seq<Event>), s: Store, targets: seq<T>, outcomes: seq<O>, j: nat): bool
    requires |outcomes| == |targets| && j < |targets|
  {
    step(StoreAfter(step, s, targets, outcomes, j), targets[j], outcomes[j]).1
  }

  /** The results of the first `k` targets, in order. */
  function ResultsAfter<T, O>(step: (Store, T, O) -> (Store, bool, seq<Event>), s: Store, targets: seq<T>, outcomes: seq<O>, k: nat): seq<bool>
    requires |outcomes| == |targets| && k <= |targets|
  {
    if k == 0 then []
    else ResultsAfter(step, s, targets, outcomes, k - 1)
         + [ResultAt(step, s, targets, outcomes, k - 1)]
  }

  /** The `j`-th result is what target `j` returns on the store left by the
      targets before it, whatever the earlier targets returned. */
  lemma {:induction false} ResultsInOrder<T, O>(step: (Store, T, O) -> (Store, bool, seq<Event>), s: Store, targets: seq<T>,
                                          outcomes: seq<O>, k: nat)
    requires |outcomes| == |targets| && k <= |targets|
    ensures |ResultsAfter(step, s, targets, outcomes, k)| == k
    ensures forall j | 0 <= j < k ::
              ResultsAfter(step, s, targets, outcomes, k)[j] == ResultAt(step, s, targets, outcomes, j)
  {
    if k > 0 {
      ResultsInOrder(step, s, targets, outcomes, k - 1);
      var earlier := ResultsAfter(step, s, targets, outcomes, k - 1);
      var all := ResultsAfter(step, s, targets, outcomes, k);
      assert all == earlier + [ResultAt(step, s, targets, outcomes, k - 1)];
      forall j | 0 <= j < k - 1
        ensures all[j] == ResultAt(step, s, targets, outcomes, j)
      {
        assert all[j] == earlier[j];
      }
    }
  }

  /** The event logs of the first `k` targets, concatenated in order. */
  function EventsAfter<T, O>(step: (Store, T, O) -> (Store, bool, seq<Event>), s: Store, targets: seq<T>, outcomes: seq<O>, k: nat): seq<Event>
    requires |outcomes| == |targets| && k <= |targets|
  {
    if k == 0 then []
    else EventsAfter(step, s, targets, outcomes, k - 1)
         + step(StoreAfter(step, s, targets, outcomes, k - 1), targets[k - 1], outcomes[k - 1]).2
  }

  /** When no step shows a toast, the targets' logs hold none either. */
  lemma {:induction false} StepsShowNoToasts<T, O>(step: (Store, T, O) -> (Store, bool, seq<Event>), s: Store,
                                                   targets: seq<T>, outcomes: seq<O>, k: nat)
    requires |outcomes| == |targets| && k <= |targets|
    requires forall st: Store, t: T, o: O :: NoToasts(step(st, t, o).2)
    ensures NoToasts(EventsAfter(step, s, targets, outcomes, k))
  {
    if k > 0 {
      StepsShowNoToasts(step, s, targets, outcomes, k - 1);
      var before := StoreAfter(step, s, targets, outcomes, k - 1);
      ConcatPreserves(EventsAfter(step, s, targets, outcomes, k - 1), step(before, targets[k - 1], outcomes[k - 1]).2);
    }
  }

  datatype BatchResult = BatchResult(
    store: Store, successCount: nat, failCount: nat, results: seq<bool>, events: seq<Event>)

  /** The events after the loop: a failure toast with the failure count if
      any target failed, a success toast with the success count if any
      succeeded, then the message notifications are refreshed. */
  function Summary(successCount: nat, failCount: nat): (events: seq<Event>)
    ensures ToastFailedToDelete(failCount) in events <==> failCount > 0
    ensures ToastConversationsDeleted(successCount) in events <==> successCount > 0
    // one toast per non-zero count and nothing else but the refresh
    ensures |events| == (if failCount > 0 then 1 else 0) + (if successCount > 0 then 1 else 0) + 1
    // the failure toast comes first, the success toast just before the refresh
    ensures failCount > 0 ==> events[0] == ToastFailedToDelete(failCount)
    ensures successCount > 0 ==> events[|events| - 2] == ToastConversationsDeleted(successCount)
    ensures events[|events| - 1] == UpdateMessageNotifications
    ensures forall e | e in events :: e.IsToast() || e == UpdateMessageNotifications
  {
    (if failCount > 0 then [ToastFailedToDelete(failCount)] else [])
    + (if successCount > 0 then [ToastConversationsDeleted(successCount)] else [])
    + [UpdateMessageNotifications]
  }

  /** Every target in order, each against the store the previous one left,
      whatever the previous one returned. */
  method ProcessAll<T, O>(step: (Store, T, O) -> (Store, bool, seq<Event>), s: Store, targets: seq<T>, outcomes: seq<O>)
    returns (store: Store, results: seq<bool>, successCount: nat, failCount: nat, events: seq<Event>)
    requires |outcomes| == |targets|
    ensures store == StoreAfter(step, s, targets, outcomes, |targets|)
    ensures events == EventsAfter(step, s, targets, outcomes, |targets|)
    ensures results == ResultsAfter(step, s, targets, outcomes, |targets|)
    ensures successCount == CountTrue(results)
    ensures successCount + failCount == |targets|
  {
    store := s;
    successCount := 0;
    failCount := 0;
    results := [];
    events := [];
    var i := 0;
    while i < |targets|
      invariant 0 <= i <= |targets|
      invariant store == StoreAfter(step, s, targets, outcomes, i)
      invariant results == ResultsAfter(step, s, targets, outcomes, i)
      invariant events == EventsAfter(step, s, targets, outcomes, i)
      invariant |results| == i && successCount == CountTrue(results)
      invariant successCount + failCount == i
    {
      var done := step(store, targets[i], outcomes[i]);
      assert (results + [done.1])[..i] == results;
      if done.1 {
        successCount := successCount + 1;
      } else {
        failCount := failCount + 1;
      }
      results := results + [done.1];
      events := events + done.2;
      store := done.0;
      i := i + 1;
    }
  }

  /** The loop of `doBackgroundWork` over any step: a null or empty batch
      does nothing; otherwise every target is processed in order and the
      results are counted, and the toasts and the notification refresh
      follow the events of every target. */
  method RunBatch<T, O>(step: (Store, T, O) -> (Store, bool, seq<Event>), s: Store, targets: seq<T>, outcomes: seq<O>)
    returns (r: BatchResult)
    requires |outcomes| == |targets|
    ensures |targets| == 0 ==> r == BatchResult(s, 0, 0, [], [])
    ensures r.successCount + r.failCount == |targets|
    ensures r.results == ResultsAfter(step, s, targets, outcomes, |targets|)
    ensures r.successCount == CountTrue(r.results)
    ensures r.store == StoreAfter(step, s, targets, outcomes, |targets|)
    ensures |targets| > 0 ==>
              r.events == EventsAfter(step, s, targets, outcomes, |targets|) + Summary(r.successCount, r.failCount)
  {
    if |targets| == 0 {
      return BatchResult(s, 0, 0, [], []);
    }
    var store, results, successCount, failCount, events := ProcessAll(step, s, targets, outcomes);
    r := BatchResult(store, successCount, failCount, results, events + Summary(successCount, failCount));
  }
}

=== FILE: effects.dfy ===
/** The observable effects of the deletion actions, recorded in order. Store
    reads, calls into the telephony provider, transaction steps and the
    fire-and-forget notifications all appear here, so that ordering and
    "never calls X" can be stated about a log. */
module Effects {

  datatype Event =
    // reads of the local conversation table
    | QueryDeletedStatus(id: string)
    | QueryThreadId(id: string, threadId: int)
    // writes to the local store
    | RequestSoftDelete(id: string)
    | DeleteLocalConversation(id: string, cutoff: int, ok: bool)
    // transaction protocol of the status update
    | BeginTransaction
    | UpdateDeletedStatus(id: string, isDeleted: bool)
    | SetTransactionSuccessful
    | EndTransaction
    // telephony provider
    | TelephonyDeleteThread(threadId: int, cutoff: int, count: int)
    | TelephonyDeleteMessage(uri: string, count: int)
    // notifications, toasts and other side effects without model state
    | DeleteNotificationChannel(id: string)
    | NotifyConversationListChanged
    | NotifyConversationMetadataChanged(id: string)
    | NotifyWidgetConversationDeleted(id: string)
    | ToastFailedToDelete(count: int)
    | ToastConversationsDeleted(count: int)
    | UpdateMessageNotifications
  {
    /** True of the calls that reach the telephony provider. */
    predicate IsTelephony() {
      TelephonyDeleteThread? || TelephonyDeleteMessage?
    }

    predicate IsToast() {
      ToastFailedToDelete? || ToastConversationsDeleted?
    }

    /** True of the permanent removals, local or telephony. */
    predicate IsPermanentDeletion() {
      DeleteLocalConversation? || IsTelephony()
    }
  }

  predicate NoTelephony(events: seq<Event>) {
    forall e | e in events :: !e.IsTelephony()
  }

  predicate NoToasts(events: seq<Event>) {
    forall e | e in events :: !e.IsToast()
  }

  predicate NoPermanentDeletion(events: seq<Event>) {
    forall e | e in events :: !e.IsPermanentDeletion()
  }

  /** Each of these properties survives concatenation of logs. */
  lemma ConcatPreserves(a: seq<Event>, b: seq<Event>)
    ensures NoTelephony(a) && NoTelephony(b) ==> NoTelephony(a + b)
    ensures NoPermanentDeletion(a) && NoPermanentDeletion(b) ==> NoPermanentDeletion(a + b)
    ensures NoToasts(a) && NoToasts(b) ==> NoToasts(a + b)
  {
  }
}

=== FILE: java_types.dfy ===
/** Java value types the deletion pipeline computes with: `int`, `long`, and
    nullable references. Dafny integers are unbounded, so the 64-bit
    wrap-around of `long` arithmetic is written out here. */
module JavaTypes {

  /** A nullable reference: `None` stands for Java's `null`. */
  datatype Option<+T> = None | Some(value: T) {
    function GetOr(default: T): T {
      match this
      case Some(v) => v
      case None => default
    }
  }

  const INT_MIN: int := -0x8000_0000
  const INT_MAX: int := 0x7fff_ffff
  const LONG_MIN: int := -0x8000_0000_0000_0000
  const LONG_MAX: int := 0x7fff_ffff_ffff_ffff
  const LONG_MODULUS: int := 0x1_0000_0000_0000_0000

  /** Java `int`. */
  type Int32 = x: int | -0x8000_0000 <= x <= 0x7fff_ffff

  /** Java `long`; also the width of an SQLite INTEGER column. */
  type Int64 = x: int | -0x8000_0000_0000_0000 <= x <= 0x7fff_ffff_ffff_ffff

  /** Two's-complement reduction of an exact result into the `long` range. */
  function Wrap64(x: int): (r: Int64)
    ensures LONG_MIN <= x <= LONG_MAX ==> r == x
    ensures (x - r) % LONG_MODULUS == 0
  {
    var m := (x - LONG_MIN) % LONG_MODULUS;
    assert x - (m + LONG_MIN) == ((x - LONG_MIN) / LONG_MODULUS) * LONG_MODULUS;
    m + LONG_MIN
  }

  /** Java `long * long`. */
  function MulLong(a: Int64, b: Int64): Int64 {
    Wrap64(a * b)
  }

  /** Java `long - long`. */
  function SubLong(a: Int64, b: Int64): Int64 {
    Wrap64(a - b)
  }
}

=== FILE: update_deleted_status.dfy ===
/** `UpdateConversationDeletedStatusAction`: sets or clears one
    conversation's soft-delete flag inside a transaction, then notifies the
    conversation list and the conversation's metadata listeners. */
module UpdateConversationDeletedStatusAction {
  import opened JavaTypes
  import opened Effects
  import opened ConversationStore

  /** The action's parameters: the conversation id and the requested flag. */
  datatype Request = Request(conversationId: string, isDeleted: bool)

  /** `deleteConversation(id)`: asks for the flag to be set. The
      constructor asserts a non-empty id. */
  function DeleteRequest(id: string): Request
    requires |id| > 0
  {
    Request(id, true)
  }

  /** `undeleteConversation(id)`: asks for the flag to be cleared. */
  function UndeleteRequest(id: string): Request
    requires |id| > 0
  {
    Request(id, false)
  }

  datatype Execution = Execution(store: Store, events: seq<Event>)

  /** The log of a transaction whose update raised: it was opened and
      closed, never marked successful, and nothing was announced. */
  function RolledBack(id: string, isDeleted: bool): (events: seq<Event>)
    ensures |events| >= 2 && events[0] == BeginTransaction
    ensures events[1] == UpdateDeletedStatus(id, isDeleted)
    ensures EndTransaction in events
    ensures SetTransactionSuccessful !in events && NotifyConversationListChanged !in events
    ensures NoPermanentDeletion(events)
    ensures forall e | e in events :: !e.IsToast()
  {
    [BeginTransaction, UpdateDeletedStatus(id, isDeleted), EndTransaction]
  }

  /** The log of a committed transaction followed by the two
      notifications. */
  function Committed(id: string, isDeleted: bool): (events: seq<Event>)
    ensures |events| >= 2 && events[0] == BeginTransaction
    ensures events[1] == UpdateDeletedStatus(id, isDeleted)
    ensures EndTransaction in events
    ensures SetTransactionSuccessful in events && NotifyConversationListChanged in events
    ensures NoPermanentDeletion(events)
    ensures forall e | e in events :: !e.IsToast()
  {
    [BeginTransaction, UpdateDeletedStatus(id, isDeleted),
     SetTransactionSuccessful, EndTransaction,
     NotifyConversationListChanged, NotifyConversationMetadataChanged(id)]
  }

  /** `executeAction`: begin, update, mark successful, end; the end always
      runs, and a transaction that was not marked successful rolls back.
      `timestamp` is the `deleted_timestamp` value the update writes and
      `updateThrows` says whether the update raised; a raised exception
      propagates past the notifications. */
  function ExecuteAction(s: Store, req: Request, timestamp: Int64, updateThrows: bool): (r: Execution)
    requires |req.conversationId| > 0
    // only the named row may change, and its flag becomes the requested one
    ensures r.store.Keys == s.Keys
    ensures forall other | other in s && other != req.conversationId :: r.store[other] == s[other]
    ensures !updateThrows && req.conversationId in s ==>
              IsDeleted(r.store, req.conversationId) == req.isDeleted
    // all or nothing: a failed update leaves the store as it was
    ensures updateThrows ==> r.store == s
    // the named row keeps its thread id
    ensures req.conversationId in s ==> r.store[req.conversationId].threadId == s[req.conversationId].threadId
    // the transaction is opened first and always closed
    ensures |r.events| >= 2 && r.events[0] == BeginTransaction
    ensures r.events[1] == UpdateDeletedStatus(req.conversationId, req.isDeleted)
    ensures EndTransaction in r.events
    ensures SetTransactionSuccessful in r.events <==> !updateThrows
    // notifications only after a commit, and after the transaction ended
    ensures NotifyConversationListChanged in r.events <==> !updateThrows
    // a raised update ends the transaction and announces nothing
    ensures updateThrows ==>
              r.events == [BeginTransaction, UpdateDeletedStatus(req.conversationId, req.isDeleted), EndTransaction]
    ensures !updateThrows ==>
              r.events[2..] == [SetTransactionSuccessful, EndTransaction,
                                NotifyConversationListChanged,
                                NotifyConversationMetadataChanged(req.conversationId)]
    ensures NoPermanentDeletion(r.events)
    ensures forall e | e in r.events :: !e.IsToast()
  {
    var id := req.conversationId;
    if updateThrows then
      Execution(s, RolledBack(id, req.isDeleted))
    else
      Execution(SetDeletedStatus(s, id, req.isDeleted, timestamp), Committed(id, req.isDeleted))
  }

  /** Deleting a conversation marks it deleted; undeleting it afterwards
      clears the mark, with the rest of the table as it was. */
  lemma DeleteThenUndelete(s: Store, id: string, t1: Int64, t2: Int64)
    requires |id| > 0 && id in s
    ensures var s1 := ExecuteAction(s, DeleteRequest(id), t1, false).store;
            var s2 := ExecuteAction(s1, UndeleteRequest(id), t2, false).store;
            IsDeleted(s1, id)
            && !IsDeleted(s2, id) && s2.Keys == s.Keys
            && s2[id].threadId == s[id].threadId
            && forall other | other in s && other != id :: s2[other] == s[other]
  {
  }
}
